=== FILE: README.md ===
# A verified model of the Test.ts test runner

Test.ts is a small hierarchical test harness. Callers register named test functions and named groups of tests with `test`. `run_tests` then walks the tree depth-first in registration order. While a test function runs, the runner captures its console output. Afterwards it prints a ✓ or ✗ marker, restores the console and replays the captured output. Nested levels are indented by wrapping the console functions with a line-prefixing function (`pad_console` / `reset_console_padding`). Failed tests bubble up as `outer -> inner -> leaf` names. Only the top-level call prints the failure summary and throws `TestFailed`.

The model has one module per part of the source:

- `Console` (console.dfy): the three channels and the console functions. A console function is `Direct` (the original function), `Padded(pad)` (the `pad_console` wrapper) or `Buffered` (the runner's capturing function). The module also holds the three `originalConsole*` slots as a `ConsoleState` value, and `pad_console` / `reset_console_padding` as the functions `Pad` / `Reset`. It defines the wrapper's text transformation (`Join`, `Split`, `PadLines`) and proves its properties.
- `Registry` (registry.dfy): the tree (`Node` = `Leaf(name, testFn)` | `Group(name, group)`), test functions as already-decided outcomes (`TestFn` = the console calls they make, then `Pass` or `Throw(error)`), and the array-backed `TestGroup` class whose `Test` method is `test`.
- `Runner` (runner.dfy): `run_tests`. Its pure part says what a run returns (`Failed`, `Count`, `Outcome`) and what it prints, together with the console state it leaves (`Transcript`, `Walk`, `GroupStep`, `NodeStep`, `LeafLines`, `Summary`). The class `Harness` holds the module-level state Test.ts mutates: `internal_tests`, the `console.log/error/warn` functions, the three `originalConsole*` slots, the terminal output and the current `log_stream`. Its methods are proved to return exactly `Outcome`, to print exactly `Transcript` and to leave the console as `Transcript` says.
- `Reference` (reference.dfy): an independent description of the report. The leaves of the tree are listed depth-first with their enclosing group names (`Sites`). Lemmas prove that `test_count` is the number of leaves and that `failed` is the list of qualified names of the failing leaves.
- `Output` (output.dfy): what is printed. It covers the order of a leaf's output, the console state a nested group leaves behind, the all-passed line and the top-level summary.
- `Assertions` (assertions.dfy): `assert`, and `assert_equals` with its comparison taken as an input.
- `Suite` (suite.dfy): the registration script test.test.ts and end-to-end scenarios.
- `Wrappers` and `Ansi` hold `Option` and the escape strings, which are treated as opaque constants.

Two behaviours of the code that a reader might not expect:

- The all-passed line is printed at every depth that has no failures, including inside nested groups (Test.ts:92-101). Its number is the length of the default registry, not the leaf count.
- After a group, the code does not restore the enclosing level's indentation. Line 61 resets every slot, so later siblings at a nested level print with no padding at all (Test.ts:51-61). `Output.WalkConsole` and `Output.SiblingAfterGroupIsUnpadded` state this.

## Model

| member | source | states |
|---|---|---|
| `Registry.TestGroup.constructor` | Test.ts:21 | a new test array is empty |
| `Registry.IsTestGroup` | Test.ts:17 | an entry is a group object exactly when it is the `Group` variant, that is, exactly when it is not a test object |
| `Registry.IsTestArray` | Test.ts:18 | a registered value is an array exactly when it is the `Array` variant, that is, exactly when it is not a test function |
| `Registry.TestGroup.Test` | Test.ts:27-33 | appends exactly one entry carrying `name`. It is a group holding the given array iff the entry is an array, and a leaf holding the function otherwise. Earlier entries are unchanged |
| `Console.Split` | Test.ts:161 | splitting on newlines always yields at least one piece |
| `Console.SplitThenJoin` | Test.ts:160-163 | splitting on `\n` and joining with `\n` gives the text back |
| `Console.JoinThenSplit` | Test.ts:160-163 | joining newline-free lines with `\n` and splitting again gives the lines back |
| `Console.PadLinesKeepsLines` | Test.ts:160-163 | for a pad without a newline, the wrapper's output has exactly the input's lines, in order, each prefixed with the pad; so the number of lines is unchanged |
| `Console.PadLinesWithEmptyPad` | Test.ts:150 | the empty pad (`repeat(0)` at depth 0) leaves the text unchanged |
| `Console.WidthPadHasNoNewline` | Test.ts:148-151 | the numeric pad is the bar prefix (two spaces, a vertical bar, two spaces) repeated n/4 times: 5·(n/4) characters and no newline |
| `Console.Pad` | Test.ts:146-200 | after `pad_console` every slot is set. A console outside a test action stays well formed: each wrapped channel has an original to forward to |
| `Console.Reset` | Test.ts:202-215 | `reset_console_padding` clears every slot. Outside a test action it always yields the plain console |
| `Console.ResetUndoesPad` | Test.ts:153-154 | resetting after padding gives the same console as resetting alone |
| `Console.PadLeavesWrappedChannelsAlone` | Test.ts:153 | a second `pad_console` before a reset changes nothing, whatever its argument |
| `Console.PadPlainWrapsEveryChannel` | Test.ts:153-198 | padding the plain console wraps all three channels with the same prefix and saves the originals |
| `Runner.Harness.constructor` | Test.ts:142-144 | at module load the default registry is empty, the console is the original one and every slot is null |
| `Runner.Harness.Invoke` | Test.ts:155-166 | calling a console function: the original prints the space-joined arguments, the capturing function records the call without printing, and the wrapper prints the padded text through the slot. The console itself is unchanged |
| `Runner.Harness.PadConsole` | Test.ts:146-200 | the new console is `Pad` of the old one; nothing is printed |
| `Runner.Harness.ResetConsolePadding` | Test.ts:202-215 | the new console is `Reset` of the old one; nothing is printed |
| `Runner.Harness.Execute` | Test.ts:69-73 | while the capturing functions are installed, the test function's calls all go to the buffer in order and nothing reaches the terminal |
| `Runner.Harness.ReplayCaptured` | Test.ts:81-87 | each buffered call is replayed in order through the function now installed on its own channel |
| `Runner.Harness.ShowVerdict` | Test.ts:72-79 | returns pass iff the test settled without throwing. Prints the pass marker on the saved log, or the fail marker and the error on the saved error. Neither the console nor the capture buffer changes |
| `Runner.Harness.RunLeaf` | Test.ts:65-88 | reports pass iff the function did not throw. Prints the marker (and the error) before the replayed output. The console is restored on both paths |
| `Runner.Harness.OpenGroup` | Test.ts:49-53 | prints the open marker through the console as it was, then leaves every slot reset and the console wrapped for one more level |
| `Runner.Harness.CloseGroup` | Test.ts:57-61 | resets every slot, wraps the console for the group's own level, prints the close marker through it, and resets every slot again |
| `Runner.Harness.RunGroup` | Test.ts:47-63 | the nested run's failures and count are taken as returned (the catch is never reached). Prints and leaves the console exactly as `GroupStep` says |
| `Runner.Harness.RunNode` | Test.ts:46-89 | one loop iteration adds `NodeFailed` to `failed` and `NodeCount` to `test_count`. Its output is as `NodeStep` says |
| `Runner.Harness.RunEntries` | Test.ts:46-90 | after the loop, `failed` and `test_count` are `Failed` and `Count` of the group, and the output is `Walk` of the whole group |
| `Runner.Harness.ListFailures` | Test.ts:95-97 | one `- name failed` line per failure, in order |
| `Runner.Harness.Report` | Test.ts:92-102 | throws `TestFailed` iff there are failures and padding is 0. Otherwise returns the accumulators. Prints exactly `Summary` |
| `Runner.Harness.RunTests` | Test.ts:40-103 | returns or throws exactly as `Outcome` says, whatever the console state. So two runs of the same tree give the same results. Prints exactly `Transcript` and leaves the console as it says. The registry is untouched |
| `Runner.Transcript` | Test.ts:40-103 | a run started on a well-formed console leaves a well-formed console, so no wrapper ever forwards to a null slot |
| `Runner.Walk` | Test.ts:46-90 | every prefix of the loop keeps the console well formed |
| `Runner.GroupStep` | Test.ts:47-61 | the group branch (reset, pad one level deeper, recurse, reset, pad, close marker, reset) keeps the console well formed |
| `Runner.NodeStep` | Test.ts:46-89 | either branch of the loop keeps the console well formed |
| `Reference.FailingNamesWithin` | Test.ts:62 | prefixing every child failure with `name + " -> "` is the same as qualifying every failing leaf with one more enclosing group |
| `Reference.CountMatchesSites` | Test.ts:41-88 | `test_count` equals the number of leaves in the whole tree. Groups contribute only their children's counts |
| `Reference.FailedMatchesSites` | Test.ts:62-76 | `failed` holds exactly one entry per failing leaf, in depth-first order: its enclosing group names, outermost first, then its own name, joined by `" -> "`. Passing leaves add nothing |
| `Reference.FailingNamesBound` | Test.ts:46-79 | there are never more failing names than leaves, and there is one iff some leaf fails |
| `Reference.FailuresNeverExceedCount` | Test.ts:46-79 | a failure never stops its siblings, so `failed.length <= test_count` |
| `Reference.TopLevelThrowsIffSomeLeafFails` | Test.ts:92-100 | the top-level run throws iff some leaf anywhere in the tree fails, and what it throws is `TestFailed` |
| `Reference.NestedRunNeverThrows` | Test.ts:56 | a nested run always returns its failures and count, so the `catch` at line 56 is never taken |
| `Output.ReplayAt` | Test.ts:81-87 | the replay has one line per captured call, and line k is call k on its own channel |
| `Output.LeafOutputOrder` | Test.ts:72-87 | a leaf prints the ✓ marker on the log channel, or the ✗ marker and then the error on the error channel. After that come its captured calls in original order, each on its original channel |
| `Output.WalkConsole` | Test.ts:51-61 | each step of a level leaves the console either as it found it or plain. After a group entry it is always plain, because of the reset at line 61 |
| `Output.WalkPrefix` | Test.ts:46-90 | output is only appended: line k of what the first i entries print is still line k of what the first j print |
| `Output.TopLevelRunRestoresConsole` | Test.ts:51-61 | a top-level run started on the original console leaves the original console behind |
| `Output.SiblingAfterGroupIsUnpadded` | Test.ts:61 | inside a nested group, a leaf that follows a sibling group prints its marker with no padding, at any depth |
| `Output.FirstNestedLeafIsPadded` | Test.ts:53 | the first leaf of a group at depth d prints, right after the open marker and with each line prefixed by the bar prefix (two spaces, a vertical bar, two spaces) repeated d+1 times, its ✓ marker on the log channel if it passed, or its ✗ marker and then its error on the error channel if it threw |
| `Output.AllPassedAtEveryDepth` | Test.ts:101 | with no failures, every level (nested ones too) ends with the `All N tests passed` line. N is the size of the default registry |
| `Output.NestedFailuresAreNotReported` | Test.ts:92-93 | below the top level, a run with failures prints no banner and no summary |
| `Output.FailedListAt` | Test.ts:95-97 | the summary list has one line per failure, and line k names failure k |
| `Output.FailureSummaryShape` | Test.ts:94-98 | the summary of a failing top-level run is exactly the count line, one line per failing name in order, and an empty log line |
| `Output.TopLevelFailureSummary` | Test.ts:94-98 | a failing top-level run ends, unpadded, with the `failed/test_count` line, then one line per qualified failing name in order, then an empty log line |
| `Assertions.Assert` | Test.ts:115-117 | throws iff the condition is false. The message is `- Assertion failed`, with `: msg` appended iff msg is non-empty |
| `Assertions.AssertEquals` | Test.ts:124-134 | throws iff the values differ. Uses `msg` when given, otherwise an expected/received message |
| `Suite.RegisterExampleSuite` | test.test.ts:3-21 | the five registrations append the five leaves in order |
| `Suite.ExampleSuiteFails` | test.test.ts:3-23 | three of the five leaves fail: count 5, the three failing names in order, and the top-level run throws |
| `Suite.RunExampleSuite` | test.test.ts:1-23 | registering on a fresh default registry and running it throws `TestFailed` |
| `Suite.GroupWithOneFailure` | Test.ts:56-63 | a group G with a passing and a failing case gives `["G -> fail"]` and count 2, and the run throws |
| `Suite.ThreeLevelFailureName` | Test.ts:62 | a failing leaf three levels deep is reported as `outer -> middle -> leafname` |
| `Suite.EmptyRegistryPasses` | Test.ts:44-101 | the empty registry prints the banner and the all-passed line, returns no failures and count 0, and does not throw |

## Left out

- Asynchrony: `await test_fn()` and the recursive `await run_tests(...)` are ordinary sequential calls. The runner never interleaves actions.
- Test function bodies: a test function is its already-decided outcome, meaning the console calls it makes and how it settles. An action that itself registers tests, runs the runner or reassigns the console functions is not modelled. `Runner.Harness.RunTests` therefore requires that no capture is in progress when it starts.
- Argument conversion: console arguments and thrown values are taken to be strings. `String(a)` for other values and the terminal's own formatting of non-string arguments are not modelled. Printed arguments are joined with one space.
- Format specifiers: an unwrapped console function applies `%s`, `%d`, `%o`, `%c` and the like when a call with several arguments starts with a string, while the padding wrapper (Test.ts:156-158) only joins the arguments with a space. The model's `Direct` sink also only joins with a space, so it does not capture that a replayed `console.log("%s!", "x")` prints `x!` unpadded but `%s! x` behind the bar prefix.
- Other console methods: only `console.log`, `console.error` and `console.warn` are swapped for capture (Test.ts:69-71) and wrapped for padding (Test.ts:155-198). Calls a test makes to `console.info`, `console.debug`, `console.trace`, `console.table` and the rest reach the terminal at once, before the verdict marker and without the bar prefix. The model's `Channel` has only the three swapped channels, so such calls cannot be expressed.
- Escapes: ANSI colour escapes and `\b` are opaque constant strings. Their rendering on a terminal is not modelled.
- `assert_equals`: `Object.is` on numbers (NaN, signed zero) and `JSON.stringify` are foreign behaviour. The comparison verdict and the two serialisations are inputs to `Assertions.AssertEquals`.
- `assert`: its condition is a plain boolean; JavaScript truthiness of arbitrary values is not modelled.
- Registry aliasing: a group entry holds the value of its array at the moment `test` is called. Pushing onto that array after it has been registered is not seen by the tree, whereas in JavaScript it would be, because the group shares the array. For the same reason, cyclic trees cannot be expressed. On such a tree `run_tests` re-enters the same array at ever deeper padding: without end if a leaf comes before the group that closes the cycle, because `await` resumes each level on a fresh stack; until the stack overflows, with the `RangeError` swallowed by the `catch` at Test.ts:56, if the group comes first.
- Numeric `pad_console` argument: it is a non-negative column count. Negative counts (counts from -1 to -3 give the empty prefix; from -4 down, `repeat` throws a `RangeError`) and fractional counts are not modelled; the runner only passes multiples of 4.
- Redundant check: `if(padding == 0)` at Test.ts:99 always holds at that point and is folded into the branch above it.
- Errors from the runner itself: the nested `catch` at Test.ts:56 is modelled only for what the nested call can throw in the model, which is nothing (`Reference.NestedRunNeverThrows`). Runtime errors such as stack exhaustion are not modelled.
- Process exit status and the module loading of test.test.ts are outside the model.

=== FILE: ansi.dfy ===
/** Terminal colour escapes and the backspaces Test.ts prints, kept as opaque constant strings. */
module Ansi {
  const EscRed: string := "\U{1b}[31m"
  const EscGreen: string := "\U{1b}[32m"
  const EscBlue: string := "\U{1b}[34m"
  const EscYellow: string := "\U{1b}[35m"
  const EscReset: string := "\U{1b}[0m"
  const Backspaces: string := "\U{8}\U{8}"
}

=== FILE: assertions.dfy ===
/**
 * The assertion helpers of Test.ts. A throw is modelled as the thrown message; no
 * throw as `None`.
 */
module Assertions {
  import opened Wrappers
  import opened Ansi

  const AssertionFailed: string := "- Assertion failed"

  /**
   * `assert(cond, msg)`: throws exactly when `cond` is falsy, with the fixed text
   * followed by `": msg"` when `msg` is not empty; otherwise does nothing.
   */
  function Assert(cond: bool, msg: string): (thrown: Option<string>)
    ensures thrown.Some? <==> !cond
    ensures thrown.Some? && msg == "" ==> thrown.value == AssertionFailed
    ensures thrown.Some? && msg != "" ==> thrown.value == AssertionFailed + ": " + msg
  {
    if !cond then Some(AssertionFailed + (if msg != "" then ": " + msg else "")) else None
  }

  /**
   * `assert_equals(a, b, msg)`, with the comparison (`Object.is` on two numbers, equal
   * `JSON.stringify` text otherwise) given as `same` and the two serialisations given as
   * text: throws exactly when the values differ, with `msg` when one was passed and a
   * message showing the expected and the received value otherwise.
   */
  function AssertEquals(same: bool, msg: Option<string>, expectedJson: string, receivedJson: string)
    : (thrown: Option<string>)
    ensures thrown.Some? <==> !same
    ensures thrown.Some? && msg.Some? ==> thrown.value == AssertionFailed + ": " + msg.value
    ensures thrown.Some? && msg.None? ==>
              thrown.value == AssertionFailed + ": " + "\n  > expected: " + EscGreen + expectedJson + EscReset + "\n  < received: " + EscRed + receivedJson + EscReset
  {
    if same then None
    else
      var shown := match msg
        case Some(m) => m
        case None => "\n  > expected: " + EscGreen + expectedJson + EscReset + "\n  < received: " + EscRed + receivedJson + EscReset;
      Some(AssertionFailed + ": " + shown)
  }
}

=== FILE: console.dfy ===
/**
 * The console as the test harness in Test.ts sees it: three channels, the function
 * currently installed on each of them, the three module-level `originalConsole*`
 * slots used by `pad_console`/`reset_console_padding`, and the text transformation
 * that the padding wrapper applies to every call.
 */
module Console {
  import opened Wrappers

  /** The three console functions the harness swaps: `console.log`, `console.error`, `console.warn`. */
  datatype Channel = Log | Error | Warn

  /** One console call made by a test action: its channel and its arguments (already strings). */
  datatype Call = Call(channel: Channel, args: seq<string>)

  /** One call that reached the real terminal, with its arguments as the terminal prints them. */
  datatype Line = Line(channel: Channel, text: string)

  /**
   * What a console function currently is: the original terminal function, the
   * line-prefixing wrapper that `pad_console` installs (it forwards to whatever the
   * channel's `originalConsole*` slot holds when it is called), or the capturing
   * function the runner installs while a test action runs.
   */
  datatype Sink = Direct | Padded(pad: string) | Buffered

  /** The argument of `pad_console`: a column count or a literal prefix. */
  datatype PadArg = Width(columns: nat) | Marker(prefix: string)

  // ---------------------------------------------------------------------------
  // Text: join, split on newlines, prefix every line
  // ---------------------------------------------------------------------------

  /** `parts.join(sep)`. */
  function Join(parts: seq<string>, sep: string): string
  {
    if |parts| == 0 then ""
    else if |parts| == 1 then parts[0]
    else parts[0] + sep + Join(parts[1..], sep)
  }

  /** `text.split("\n")`: the pieces between newlines; there is always at least one. */
  function Split(text: string): (lines: seq<string>)
    ensures |lines| >= 1
  {
    if text == [] then [""]
    else
      var rest := Split(text[1..]);
      if text[0] == '\n' then [""] + rest
      else [[text[0]] + rest[0]] + rest[1..]
  }

  /** `lines.map(line => pad + line)`. */
  function PrefixEach(pad: string, lines: seq<string>): seq<string>
  {
    seq(|lines|, k requires 0 <= k < |lines| => pad + lines[k])
  }

  /** What the padding wrapper forwards: every line of `text` prefixed with `pad`, rejoined. */
  function PadLines(text: string, pad: string): string
  {
    Join(PrefixEach(pad, Split(text)), "\n")
  }

  /** `s.repeat(k)`. */
  function Repeat(s: string, k: nat): string
  {
    if k == 0 then "" else s + Repeat(s, k - 1)
  }

  /** The prefix `pad_console` computes from its argument. */
  function PadString(arg: PadArg): string
  {
    match arg
    case Width(n) => Repeat("  |  ", n / 4)
    case Marker(s) => "|" + s
  }

  /** Splitting and rejoining on newlines gives the text back. */
  lemma {:induction false} SplitThenJoin(text: string)
    ensures Join(Split(text), "\n") == text
  {
    if text != [] {
      var rest := Split(text[1..]);
      SplitThenJoin(text[1..]);
      if text[0] == '\n' {
        assert Split(text) == [""] + rest;
      } else if |rest| == 1 {
        assert Split(text) == [[text[0]] + rest[0]];
      } else {
        assert Split(text) == [[text[0]] + rest[0]] + rest[1..];
        assert Join(rest, "\n") == rest[0] + "\n" + Join(rest[1..], "\n");
        assert ([text[0]] + rest[0]) + "\n" + Join(rest[1..], "\n")
            == [text[0]] + (rest[0] + "\n" + Join(rest[1..], "\n"));
        assert text == [text[0]] + text[1..];
      }
    }
  }

  /** No piece produced by `Split` contains a newline. */
  lemma {:induction false} SplitPiecesHaveNoNewline(text: string)
    ensures forall k :: 0 <= k < |Split(text)| ==> '\n' !in Split(text)[k]
  {
    if text != [] {
      SplitPiecesHaveNoNewline(text[1..]);
    }
  }

  /** Splitting a newline-free head followed by `t` glues the head onto the first piece of `t`. */
  lemma {:induction false} SplitAfterPlainHead(head: string, t: string)
    requires '\n' !in head
    ensures Split(head + t) == [head + Split(t)[0]] + Split(t)[1..]
  {
    if head != [] {
      SplitAfterPlainHead(head[1..], t);
      assert (head + t)[1..] == head[1..] + t;
      assert (head + t)[0] == head[0];
      assert [head[0]] + (head[1..] + Split(t)[0]) == head + Split(t)[0];
    } else {
      assert head + t == t;
      var pieces := Split(t);
      assert head + pieces[0] == pieces[0];
      assert pieces == [pieces[0]] + pieces[1..];
    }
  }

  /** Joining newline-free lines and splitting again gives the lines back. */
  lemma {:induction false} JoinThenSplit(lines: seq<string>)
    requires |lines| >= 1
    requires forall k :: 0 <= k < |lines| ==> '\n' !in lines[k]
    ensures Split(Join(lines, "\n")) == lines
  {
    if |lines| == 1 {
      SplitAfterPlainHead(lines[0], "");
      assert lines[0] + "" == lines[0];
    } else {
      var tail := Join(lines[1..], "\n");
      JoinThenSplit(lines[1..]);
      assert Join(lines, "\n") == lines[0] + ("\n" + tail);
      SplitAfterPlainHead(lines[0], "\n" + tail);
      assert ("\n" + tail)[1..] == tail;
      assert Split("\n" + tail) == [""] + lines[1..];
      assert lines[0] + "" == lines[0];
      assert lines == [lines[0]] + lines[1..];
    }
  }

  /**
   * The padding wrapper keeps the number of lines: splitting its output gives exactly
   * the lines of the input, each prefixed with the pad (for a pad without a newline).
   */
  lemma PadLinesKeepsLines(text: string, pad: string)
    requires '\n' !in pad
    ensures Split(PadLines(text, pad)) == PrefixEach(pad, Split(text))
    ensures |Split(PadLines(text, pad))| == |Split(text)|
  {
    var lines := PrefixEach(pad, Split(text));
    SplitPiecesHaveNoNewline(text);
    forall k | 0 <= k < |lines|
      ensures '\n' !in lines[k]
    {
      assert lines[k] == pad + Split(text)[k];
    }
    JoinThenSplit(lines);
  }

  /** An empty pad leaves the text unchanged. */
  lemma PadLinesWithEmptyPad(text: string)
    ensures PadLines(text, "") == text
  {
    var lines := Split(text);
    forall k | 0 <= k < |lines|
      ensures PrefixEach("", lines)[k] == lines[k]
    {
      assert "" + lines[k] == lines[k];
    }
    assert PrefixEach("", lines) == lines;
    SplitThenJoin(text);
  }

  /** The column form of the prefix never contains a newline, so it never adds lines. */
  lemma {:induction false} WidthPadHasNoNewline(n: nat)
    ensures '\n' !in PadString(Width(n))
    ensures |PadString(Width(n))| == 5 * (n / 4)
  {
    RepeatHasNoNewline(n / 4);
  }

  lemma {:induction false} RepeatHasNoNewline(k: nat)
    ensures '\n' !in Repeat("  |  ", k) && |Repeat("  |  ", k)| == 5 * k
  {
    if k > 0 {
      RepeatHasNoNewline(k - 1);
    }
  }

  // ---------------------------------------------------------------------------
  // Console state: the three functions and the three originalConsole* slots
  // ---------------------------------------------------------------------------

  datatype ConsoleState = ConsoleState(
    log: Sink, error: Sink, warn: Sink,
    originalLog: Option<Sink>, originalError: Option<Sink>, originalWarn: Option<Sink>)
  {
    /** The function currently installed on `ch`. */
    function Fn(ch: Channel): Sink
    {
      match ch
      case Log => log
      case Error => error
      case Warn => warn
    }

    /** The `originalConsole*` slot of `ch`. */
    function Original(ch: Channel): Option<Sink>
    {
      match ch
      case Log => originalLog
      case Error => originalError
      case Warn => originalWarn
    }
  }

  /** The console when nothing is wrapped: original functions, every slot null. */
  const Plain := ConsoleState(Direct, Direct, Direct, None, None, None)

  /**
   * A channel outside a test action: not capturing; a slot holds nothing or the
   * original function; and a wrapped channel always has its slot set, so the wrapper
   * always has an original to forward to.
   */
  predicate ChannelIdle(fn: Sink, original: Option<Sink>)
  {
    fn != Buffered
    && (original == None || original == Some(Direct))
    && (fn.Padded? ==> original == Some(Direct))
  }

  predicate Idle(c: ConsoleState)
  {
    ChannelIdle(c.log, c.originalLog)
    && ChannelIdle(c.error, c.originalError)
    && ChannelIdle(c.warn, c.originalWarn)
  }

  /**
   * `pad_console(arg)`: each channel whose slot is null gets its current function
   * saved in the slot and is replaced by the wrapper; a channel whose slot is already
   * set is left alone.
   */
  function Pad(c: ConsoleState, arg: PadArg): (d: ConsoleState)
    ensures Idle(c) ==> Idle(d)
    ensures d.originalLog.Some? && d.originalError.Some? && d.originalWarn.Some?
  {
    var pad := PadString(arg);
    ConsoleState(
      if c.originalLog == None then Padded(pad) else c.log,
      if c.originalError == None then Padded(pad) else c.error,
      if c.originalWarn == None then Padded(pad) else c.warn,
      if c.originalLog == None then Some(c.log) else c.originalLog,
      if c.originalError == None then Some(c.error) else c.originalError,
      if c.originalWarn == None then Some(c.warn) else c.originalWarn)
  }

  /**
   * `reset_console_padding()`: each channel whose slot is set gets the saved function
   * back and the slot cleared. Outside a test action this always yields the plain console.
   */
  function Reset(c: ConsoleState): (d: ConsoleState)
    ensures d.originalLog == None && d.originalError == None && d.originalWarn == None
    ensures Idle(c) ==> d == Plain
  {
    ConsoleState(
      if c.originalLog.Some? then c.originalLog.value else c.log,
      if c.originalError.Some? then c.originalError.value else c.error,
      if c.originalWarn.Some? then c.originalWarn.value else c.warn,
      None, None, None)
  }

  /** Resetting undoes padding: pad then reset is the same as reset alone. */
  lemma ResetUndoesPad(c: ConsoleState, arg: PadArg)
    ensures Reset(Pad(c, arg)) == Reset(c)
  {
  }

  /** A second `pad_console` before a reset changes nothing, whatever its argument. */
  lemma PadLeavesWrappedChannelsAlone(c: ConsoleState, first: PadArg, second: PadArg)
    ensures Pad(Pad(c, first), second) == Pad(c, first)
  {
  }

  /** Padding the plain console wraps all three channels with the same prefix. */
  lemma PadPlainWrapsEveryChannel(arg: PadArg)
    ensures Idle(Pad(Plain, arg))
    ensures forall ch :: Pad(Plain, arg).Fn(ch) == Padded(PadString(arg))
                       && Pad(Plain, arg).Original(ch) == Some(Direct)
  {
  }

  /** The text that reaches the terminal when the function `fn` is called with `args`. */
  function Shown(fn: Sink, args: seq<string>): string
    requires fn != Buffered
  {
    var text := Join(args, " ");
    if fn.Padded? then PadLines(text, fn.pad) else text
  }

  /** The terminal output of one `console.<ch>(...args)` call made outside a test action. */
  function Say(c: ConsoleState, ch: Channel, args: seq<string>): seq<Line>
    requires Idle(c)
  {
    [Line(ch, Shown(c.Fn(ch), args))]
  }
}

=== FILE: output.dfy ===
/**
 * Properties of what a run of Test.ts prints: the order of a leaf's output, the
 * console state that nested groups leave behind, and the closing reports.
 */
module Output {
  import opened Wrappers
  import opened Console
  import opened Registry
  import opened Runner

  /** Replaying keeps one line per captured call, in order, each on its own channel. */
  lemma {:induction false} ReplayAt(c: ConsoleState, calls: seq<Call>, k: nat)
    requires Idle(c) && k < |calls|
    ensures |Replay(c, calls)| == |calls|
    ensures Replay(c, calls)[k] == Line(calls[k].channel, Shown(c.Fn(calls[k].channel), calls[k].args))
  {
    var m := |calls| - 1;
    if k < m {
      ReplayAt(c, calls[..m], k);
    } else {
      ReplayLength(c, calls[..m]);
    }
  }

  lemma {:induction false} ReplayLength(c: ConsoleState, calls: seq<Call>)
    requires Idle(c)
    ensures |Replay(c, calls)| == |calls|
  {
    if calls != [] {
      ReplayLength(c, calls[..|calls| - 1]);
    }
  }

  /**
   * A leaf prints its status marker first (✓ on the log channel, or ✗ and then the
   * error on the error channel) and only then the calls its action made, in their
   * original order and each on its original channel.
   */
  lemma LeafOutputOrder(c: ConsoleState, name: string, testFn: TestFn)
    requires Idle(c)
    ensures var lines := LeafLines(c, name, testFn);
            var v := if testFn.settle.Pass? then 1 else 2;
            && |lines| == v + |testFn.logs|
            && (testFn.settle.Pass? ==> lines[0] == Line(Log, Shown(c.log, [PassText(name)])))
            && (testFn.settle.Throw? ==>
                  lines[0] == Line(Error, Shown(c.error, [FailText(name)]))
                  && lines[1] == Line(Error, Shown(c.error, [testFn.settle.error])))
            && forall k :: 0 <= k < |testFn.logs| ==>
                 lines[v + k] == Line(testFn.logs[k].channel, Shown(c.Fn(testFn.logs[k].channel), testFn.logs[k].args))
  {
    ReplayLength(c, testFn.logs);
    forall k | 0 <= k < |testFn.logs|
      ensures Replay(c, testFn.logs)[k]
           == Line(testFn.logs[k].channel, Shown(c.Fn(testFn.logs[k].channel), testFn.logs[k].args))
    {
      ReplayAt(c, testFn.logs, k);
    }
  }

  /**
   * Walking a level either leaves the console as it found it or, once a group entry has
   * run, leaves every channel unwrapped: the reset after a group's close marker also
   * removes the padding of the enclosing level.
   */
  lemma {:induction false} WalkConsole(group: seq<Node>, i: nat, padding: nat, c: ConsoleState, n: nat)
    requires i <= |group| && Idle(c)
    ensures Walk(group, i, padding, c, n).console == c || Walk(group, i, padding, c, n).console == Plain
    ensures i > 0 && group[i - 1].Group? ==> Walk(group, i, padding, c, n).console == Plain
  {
    if i > 0 {
      WalkConsole(group, i - 1, padding, c, n);
      var prev := Walk(group, i - 1, padding, c, n);
      match group[i - 1]
      case Leaf(_, _) =>
      case Group(name, children) =>
        var c1 := Pad(Reset(prev.console), Width((padding + 1) * 4));
        var inner := Transcript(children, padding + 1, c1, n);
        var c2 := Pad(Reset(inner.console), Width(padding * 4));
        assert Idle(c2);
        assert GroupStep(prev.console, name, children, padding, n).console == Reset(c2);
        assert NodeStep(prev.console, group[i - 1], padding, n) == GroupStep(prev.console, name, children, padding, n);
    }
  }

  /**
   * Output is only appended: line `k` of what the first `i` entries print is still line `k`
   * of what the first `j` print.
   */
  lemma WalkPrefix(group: seq<Node>, i: nat, j: nat, k: nat, padding: nat, c: ConsoleState, n: nat)
    requires i <= j <= |group| && Idle(c)
    requires k < |Walk(group, i, padding, c, n).lines|
    ensures k < |Walk(group, j, padding, c, n).lines|
    ensures Walk(group, j, padding, c, n).lines[k] == Walk(group, i, padding, c, n).lines[k]
  {
    var line := Walk(group, i, padding, c, n).lines[k];
    var m := i;
    while m < j
      invariant i <= m <= j
      invariant k < |Walk(group, m, padding, c, n).lines| && Walk(group, m, padding, c, n).lines[k] == line
    {
      WalkKeeps(group, m + 1, k, padding, c, n);
      m := m + 1;
    }
  }

  /** One more entry keeps every line printed so far in place. */
  lemma WalkKeeps(group: seq<Node>, j: nat, k: nat, padding: nat, c: ConsoleState, n: nat)
    requires 0 < j <= |group| && Idle(c)
    requires k < |Walk(group, j - 1, padding, c, n).lines|
    ensures k < |Walk(group, j, padding, c, n).lines|
    ensures Walk(group, j, padding, c, n).lines[k] == Walk(group, j - 1, padding, c, n).lines[k]
  {
    WalkNext(group, j, padding, c, n);
    var prev := Walk(group, j - 1, padding, c, n);
    IndexOfAppend(prev.lines, NodeStep(prev.console, group[j - 1], padding, n).lines,
                  Walk(group, j, padding, c, n).lines, k);
  }

  /** Appending to a sequence leaves its existing elements where they were. */
  lemma IndexOfAppend<T>(a: seq<T>, b: seq<T>, ab: seq<T>, k: nat)
    requires ab == a + b && k < |a|
    ensures k < |ab| && ab[k] == a[k]
  {
  }

  /** A top-level run started on the plain console leaves the plain console behind. */
  lemma TopLevelRunRestoresConsole(group: seq<Node>, n: nat)
    ensures Transcript(group, 0, Plain, n).console == Plain
  {
    WalkConsole(group, |group|, 0, Plain, n);
  }

  /**
   * Inside a nested group, a leaf that follows a sibling group prints its marker with no
   * padding at all, whatever its depth.
   */
  lemma SiblingAfterGroupIsUnpadded(group: seq<Node>, i: nat, padding: nat, c: ConsoleState, n: nat)
    requires Idle(c) && 0 < i < |group|
    requires group[i - 1].Group? && group[i].Leaf?
    ensures var before := Walk(group, i, padding, c, n).lines;
            var after := Walk(group, i + 1, padding, c, n).lines;
            && |after| > |before|
            && after[|before|] == (if group[i].testFn.settle.Pass? then Line(Log, PassText(group[i].name))
                                   else Line(Error, FailText(group[i].name)))
  {
    WalkConsole(group, i, padding, c, n);
    LeafOutputOrder(Plain, group[i].name, group[i].testFn);
  }

  /**
   * The first leaf of a group at depth `padding` prints its marker prefixed with one
   * `"  |  "` per level below the top.
   */
  lemma FirstNestedLeafIsPadded(c: ConsoleState, name: string, children: seq<Node>, padding: nat, n: nat)
    requires Idle(c) && |children| > 0 && children[0].Leaf?
    ensures var lines := GroupStep(c, name, children, padding, n).lines;
            var pad := Repeat("  |  ", padding + 1);
            var leaf := children[0];
            && |lines| > 1
            && (leaf.testFn.settle.Pass? ==> lines[1] == Line(Log, PadLines(PassText(leaf.name), pad)))
            && (leaf.testFn.settle.Throw? ==>
                  |lines| > 2
                  && lines[1] == Line(Error, PadLines(FailText(leaf.name), pad))
                  && lines[2] == Line(Error, PadLines(leaf.testFn.settle.error, pad)))
  {
    var leaf := children[0];
    var c1 := NestedConsole(c, padding);
    LeafOutputOrder(c1, leaf.name, leaf.testFn);
    var v := if leaf.testFn.settle.Pass? then 1 else 2;
    forall k | 0 <= k < v
      ensures 1 + k < |GroupStep(c, name, children, padding, n).lines|
      ensures GroupStep(c, name, children, padding, n).lines[1 + k] == LeafLines(c1, leaf.name, leaf.testFn)[k]
    {
      FirstLeafLeadsWalk(children, k, padding + 1, c1, n);
      GroupStepLine(c, name, children, padding, n, k);
    }
  }

  /** The console a group's entries run on: every channel wrapped with the next level's prefix. */
  lemma NestedConsole(c: ConsoleState, padding: nat) returns (c1: ConsoleState)
    requires Idle(c)
    ensures c1 == Pad(Reset(c), Width((padding + 1) * 4))
    ensures var pad := Padded(Repeat("  |  ", padding + 1));
            c1 == ConsoleState(pad, pad, pad, Some(Direct), Some(Direct), Some(Direct))
  {
    c1 := Pad(Reset(c), Width((padding + 1) * 4));
    assert (padding + 1) * 4 / 4 == padding + 1;
  }

  /** The lines a first leaf prints open the output of the whole loop. */
  lemma FirstLeafLeadsWalk(group: seq<Node>, k: nat, padding: nat, c: ConsoleState, n: nat)
    requires Idle(c) && |group| > 0 && group[0].Leaf?
    requires k < |LeafLines(c, group[0].name, group[0].testFn)|
    ensures k < |Walk(group, |group|, padding, c, n).lines|
    ensures Walk(group, |group|, padding, c, n).lines[k] == LeafLines(c, group[0].name, group[0].testFn)[k]
  {
    assert Walk(group, 0, padding, c, n) == Effect([], c);
    assert group[0] == Leaf(group[0].name, group[0].testFn);
    WalkNext(group, 1, padding, c, n);
    assert Walk(group, 1, padding, c, n).lines == [] + LeafLines(c, group[0].name, group[0].testFn);
    WalkPrefix(group, 1, |group|, k, padding, c, n);
  }

  /** Line `k` of a group's loop output is line `1 + k` of the group's output, after the open marker. */
  lemma GroupStepLine(c: ConsoleState, name: string, children: seq<Node>, padding: nat, n: nat, k: nat)
    requires Idle(c)
    requires k < |Walk(children, |children|, padding + 1, Pad(Reset(c), Width((padding + 1) * 4)), n).lines|
    ensures 1 + k < |GroupStep(c, name, children, padding, n).lines|
    ensures GroupStep(c, name, children, padding, n).lines[1 + k]
         == Walk(children, |children|, padding + 1, Pad(Reset(c), Width((padding + 1) * 4)), n).lines[k]
  {
    var c1 := Pad(Reset(c), Width((padding + 1) * 4));
    var body := Walk(children, |children|, padding + 1, c1, n);
    var inner := Transcript(children, padding + 1, c1, n);
    assert inner.lines == [] + body.lines + Summary(body.console, Failed(children), Count(children), padding + 1, n);
    var lines := GroupStep(c, name, children, padding, n).lines;
    assert lines == Say(c, Log, [OpenText(padding, name)]) + inner.lines
                    + Say(Pad(Reset(inner.console), Width(padding * 4)), Log, [CloseText(padding, name)]);
    assert inner.lines[k] == body.lines[k];
  }

  /**
   * When no test failed, every level, nested ones included, ends with the all-passed
   * line, and the number in it is the size of the default registry `n`, not the count.
   */
  lemma AllPassedAtEveryDepth(group: seq<Node>, padding: nat, c: ConsoleState, n: nat)
    requires Idle(c) && |Failed(group)| == 0
    ensures var lines := Transcript(group, padding, c, n).lines;
            && |lines| > 0
            && exists pad :: lines[|lines| - 1] == Line(Log, PadLines(AllPassedText(n), pad))
  {
    var body := Walk(group, |group|, padding, c, n);
    var lines := Transcript(group, padding, c, n).lines;
    assert lines[|lines| - 1] == Line(Log, Shown(body.console.log, [AllPassedText(n)]));
    if body.console.log.Padded? {
      assert lines[|lines| - 1] == Line(Log, PadLines(AllPassedText(n), body.console.log.pad));
    } else {
      PadLinesWithEmptyPad(AllPassedText(n));
      assert lines[|lines| - 1] == Line(Log, PadLines(AllPassedText(n), ""));
    }
  }

  /** Below the top level a run with failures prints no banner and no summary: only its entries. */
  lemma NestedFailuresAreNotReported(group: seq<Node>, padding: nat, c: ConsoleState, n: nat)
    requires Idle(c) && padding > 0 && |Failed(group)| > 0
    ensures Transcript(group, padding, c, n).lines == Walk(group, |group|, padding, c, n).lines
  {
  }

  lemma {:induction false} FailedListAt(failed: seq<string>, k: nat)
    requires k < |failed|
    ensures |FailedList(Plain, failed)| == |failed|
    ensures FailedList(Plain, failed)[k] == Line(Error, FailedNameText(failed[k]))
  {
    var m := |failed| - 1;
    if k < m {
      FailedListAt(failed[..m], k);
    } else {
      FailedListLength(failed[..m]);
    }
  }

  lemma {:induction false} FailedListLength(failed: seq<string>)
    ensures |FailedList(Plain, failed)| == |failed|
  {
    if failed != [] {
      FailedListLength(failed[..|failed| - 1]);
    }
  }

  /** The failure summary: the count line, one line per failure in order, an empty log line. */
  lemma FailureSummaryShape(failed: seq<string>, count: nat, n: nat)
    requires |failed| > 0
    ensures var t := Summary(Plain, failed, count, 0, n);
            && |t| == |failed| + 2
            && t[0] == Line(Error, FailedCountText(|failed|, count))
            && (forall k :: 0 <= k < |failed| ==> t[1 + k] == Line(Error, FailedNameText(failed[k])))
            && t[|failed| + 1] == Line(Log, "")
  {
    var list := FailedList(Plain, failed);
    FailedListLength(failed);
    var t := Summary(Plain, failed, count, 0, n);
    assert t == Say(Plain, Error, [FailedCountText(|failed|, count)]) + list + Say(Plain, Log, [""]);
    forall k | 0 <= k < |failed|
      ensures t[1 + k] == Line(Error, FailedNameText(failed[k]))
    {
      FailedListAt(failed, k);
    }
  }

  /**
   * A top-level run with failures ends with the `failed/test_count` line, one line per
   * failed qualified name in order, and an empty log line, all unpadded.
   */
  lemma TopLevelFailureSummary(group: seq<Node>, n: nat)
    requires |Failed(group)| > 0
    ensures var lines := Transcript(group, 0, Plain, n).lines;
            var m := |Failed(group)|;
            && |lines| >= m + 2
            && lines[|lines| - m - 2] == Line(Error, FailedCountText(m, Count(group)))
            && (forall k :: 0 <= k < m ==> lines[|lines| - m - 1 + k] == Line(Error, FailedNameText(Failed(group)[k])))
            && lines[|lines| - 1] == Line(Log, "")
  {
    var failed := Failed(group);
    var m := |failed|;
    WalkConsole(group, |group|, 0, Plain, n);
    var body := Walk(group, |group|, 0, Plain, n);
    var tail := Summary(body.console, failed, Count(group), 0, n);
    assert body.console == Plain;
    FailureSummaryShape(failed, Count(group), n);
    var head := Say(Plain, Log, [BannerText()]) + body.lines;
    var lines := Transcript(group, 0, Plain, n).lines;
    assert lines == head + tail;
    forall k | 0 <= k < m
      ensures lines[|lines| - m - 1 + k] == Line(Error, FailedNameText(failed[k]))
    {
      assert lines[|head| + 1 + k] == tail[1 + k];
    }
  }
}

=== FILE: reference.dfy ===
/**
 * An independent description of what a run of Test.ts reports: the leaves of the tree
 * enumerated depth-first with the names of their enclosing groups, and the lemmas that
 * the runner's `failed` list and `test_count` are exactly what this enumeration says.
 */
module Reference {
  import opened Console
  import opened Registry
  import opened Runner

  /** A leaf of the tree: enclosing group names outermost first, then its own name; and its action. */
  datatype Site = Site(path: seq<string>, testFn: TestFn)

  /** Every leaf of `group`, depth-first in registration order. */
  function Sites(group: seq<Node>): (r: seq<Site>)
    ensures forall k :: 0 <= k < |r| ==> |r[k].path| >= 1
    decreases group
  {
    if group == [] then [] else NodeSites(group[0]) + Sites(group[1..])
  }

  /** Every leaf at or below one entry. */
  function NodeSites(el: Node): (r: seq<Site>)
    ensures forall k :: 0 <= k < |r| ==> |r[k].path| >= 1
    decreases el
  {
    match el
    case Leaf(name, testFn) => [Site([name], testFn)]
    case Group(name, children) => Within(name, Sites(children))
  }

  /** The same leaves seen from one group further out. */
  function Within(name: string, sites: seq<Site>): (r: seq<Site>)
    ensures |r| == |sites|
    ensures forall k :: 0 <= k < |r| ==> r[k].path == [name] + sites[k].path && r[k].testFn == sites[k].testFn
  {
    seq(|sites|, k requires 0 <= k < |sites| => Site([name] + sites[k].path, sites[k].testFn))
  }

  /** The qualified name of a leaf: its path joined with " -> ". */
  function QualifiedName(s: Site): string
  {
    Join(s.path, " -> ")
  }

  predicate Fails(s: Site)
  {
    s.testFn.settle.Throw?
  }

  /** The qualified names of the failing leaves among `sites`, in order. */
  function FailingNames(sites: seq<Site>): seq<string>
  {
    if sites == [] then []
    else (if Fails(sites[0]) then [QualifiedName(sites[0])] else []) + FailingNames(sites[1..])
  }

  lemma {:induction false} SitesAppend(a: seq<Node>, b: seq<Node>)
    ensures Sites(a + b) == Sites(a) + Sites(b)
  {
    if a != [] {
      SitesAppend(a[1..], b);
      assert (a + b)[1..] == a[1..] + b;
    } else {
      assert a + b == b;
    }
  }

  lemma {:induction false} FailingNamesAppend(a: seq<Site>, b: seq<Site>)
    ensures FailingNames(a + b) == FailingNames(a) + FailingNames(b)
  {
    if a != [] {
      FailingNamesAppend(a[1..], b);
      assert (a + b)[1..] == a[1..] + b;
    } else {
      assert a + b == b;
    }
  }

  /** Never more failing names than leaves. */
  lemma {:induction false} FailingNamesBound(sites: seq<Site>)
    ensures |FailingNames(sites)| <= |sites|
    ensures FailingNames(sites) != [] <==> exists k :: 0 <= k < |sites| && Fails(sites[k])
  {
    if sites != [] {
      FailingNamesBound(sites[1..]);
      if !Fails(sites[0]) && exists k :: 0 <= k < |sites| && Fails(sites[k]) {
        var k :| 0 <= k < |sites| && Fails(sites[k]);
        assert Fails(sites[1..][k - 1]);
      }
      if exists k :: 0 <= k < |sites[1..]| && Fails(sites[1..][k]) {
        var k :| 0 <= k < |sites[1..]| && Fails(sites[1..][k]);
        assert Fails(sites[k + 1]);
      }
    }
  }

  /** Qualifying by a group name commutes with collecting failing names. */
  lemma {:induction false} FailingNamesWithin(name: string, sites: seq<Site>)
    requires forall k :: 0 <= k < |sites| ==> |sites[k].path| >= 1
    ensures FailingNames(Within(name, sites)) == Qualify(name, FailingNames(sites))
  {
    if sites != [] {
      var w := Within(name, sites);
      FailingNamesWithin(name, sites[1..]);
      assert w[1..] == Within(name, sites[1..]);
      var p := sites[0].path;
      assert ([name] + p)[1..] == p;
      assert QualifiedName(w[0]) == name + " -> " + QualifiedName(sites[0]);
      var head := if Fails(sites[0]) then [QualifiedName(sites[0])] else [];
      var rest := FailingNames(sites[1..]);
      assert Qualify(name, head + rest) == Qualify(name, head) + Qualify(name, rest);
    }
  }

  /** The runner's count of one entry is the number of its leaves. */
  lemma {:induction false} NodeCountMatchesSites(el: Node)
    ensures NodeCount(el) == |NodeSites(el)|
    decreases el
  {
    match el
    case Leaf(_, _) =>
    case Group(_, children) => CountMatchesSites(children);
  }

  lemma {:induction false} CountUpToMatchesSites(group: seq<Node>, i: nat)
    requires i <= |group|
    ensures CountUpTo(group, i) == |Sites(group[..i])|
    decreases group, 0, i
  {
    if i > 0 {
      CountUpToMatchesSites(group, i - 1);
      NodeCountMatchesSites(group[i - 1]);
      assert group[..i] == group[..i - 1] + [group[i - 1]];
      SitesAppend(group[..i - 1], [group[i - 1]]);
      assert Sites([group[i - 1]]) == NodeSites(group[i - 1]) + Sites([]);
    }
  }

  /** `test_count` is the number of leaves in the whole tree; groups add only their children's counts. */
  lemma {:induction false} CountMatchesSites(group: seq<Node>)
    ensures Count(group) == |Sites(group)|
    decreases group, 1
  {
    CountUpToMatchesSites(group, |group|);
    assert group[..|group|] == group;
  }

  lemma {:induction false} NodeFailedMatchesSites(el: Node)
    ensures NodeFailed(el) == FailingNames(NodeSites(el))
    decreases el
  {
    match el
    case Leaf(name, testFn) =>
      assert QualifiedName(Site([name], testFn)) == name;
      assert FailingNames(NodeSites(el)) == (if testFn.settle.Throw? then [name] else []) + FailingNames([]);
    case Group(name, children) =>
      FailedMatchesSites(children);
      FailingNamesWithin(name, Sites(children));
  }

  lemma {:induction false} FailedUpToMatchesSites(group: seq<Node>, i: nat)
    requires i <= |group|
    ensures FailedUpTo(group, i) == FailingNames(Sites(group[..i]))
    decreases group, 0, i
  {
    if i > 0 {
      FailedUpToMatchesSites(group, i - 1);
      NodeFailedMatchesSites(group[i - 1]);
      assert group[..i] == group[..i - 1] + [group[i - 1]];
      SitesAppend(group[..i - 1], [group[i - 1]]);
      assert Sites([group[i - 1]]) == NodeSites(group[i - 1]) + Sites([]);
      assert NodeSites(group[i - 1]) + Sites([]) == NodeSites(group[i - 1]);
      FailingNamesAppend(Sites(group[..i - 1]), NodeSites(group[i - 1]));
    }
  }

  /**
   * The `failed` list holds exactly one entry per failing leaf, in depth-first order,
   * each the leaf's enclosing group names and its own name joined with " -> ".
   */
  lemma {:induction false} FailedMatchesSites(group: seq<Node>)
    ensures Failed(group) == FailingNames(Sites(group))
    decreases group, 1
  {
    FailedUpToMatchesSites(group, |group|);
    assert group[..|group|] == group;
  }

  /** A failure never hides another test: there are never more failures than tests run. */
  lemma FailuresNeverExceedCount(group: seq<Node>)
    ensures |Failed(group)| <= Count(group)
  {
    FailedMatchesSites(group);
    CountMatchesSites(group);
    FailingNamesBound(Sites(group));
  }

  /** The top-level run throws `TestFailed` exactly when some leaf anywhere in the tree fails. */
  lemma TopLevelThrowsIffSomeLeafFails(group: seq<Node>)
    ensures Outcome(group, 0).Thrown? <==> exists k :: 0 <= k < |Sites(group)| && Fails(Sites(group)[k])
    ensures Outcome(group, 0).Thrown? ==> Outcome(group, 0).error == TestFailed
  {
    FailedMatchesSites(group);
    FailingNamesBound(Sites(group));
  }

  /** A nested run never throws, so the `catch` around the nested call is never taken. */
  lemma NestedRunNeverThrows(group: seq<Node>, padding: nat)
    requires padding > 0
    ensures Outcome(group, padding) == Returned(Failed(group), Count(group))
  {
  }
}

=== FILE: registry.dfy ===
/**
 * The test tree of Test.ts and its registration: a `TestGroup` is an array whose
 * entries are leaves `{name, test_fn}` or groups `{name, group}`; `test` appends one.
 */
module Registry {
  import opened Console

  /** How a test action settles: it returns, or it throws a value (shown as text). */
  datatype Settle = Pass | Throw(error: string)

  /**
   * A test action as an already-decided outcome: the console calls it makes while it
   * runs, in order, and then how it settles.
   */
  datatype TestFn = TestFn(logs: seq<Call>, settle: Settle)

  /** One entry of a `TestGroup`: a test object or a test group object. */
  datatype Node =
    | Leaf(name: string, testFn: TestFn)
    | Group(name: string, group: seq<Node>)

  /** The second argument of `test`: a test function or an array of entries. */
  datatype TestEntry = Action(fn: TestFn) | Array(entries: seq<Node>)

  /**
   * `is_test_group`: the entry has a `group` property, which only group objects carry;
   * every entry that is not a test object is a group.
   */
  function IsTestGroup(n: Node): (b: bool)
    ensures b <==> !n.Leaf?
  {
    n.Group?
  }

  /** `is_test_array`: the registered value is an array; anything else is a test function. */
  function IsTestArray(e: TestEntry): (b: bool)
    ensures b <==> !e.Action?
  {
    e.Array?
  }

  /** A `TestGroup` array that registrations push onto. */
  class TestGroup {
    var entries: seq<Node>

    constructor ()
      ensures entries == []
    {
      entries := [];
    }

    /**
     * `test(name, entry, this)`: appends exactly one entry, a group if `entry` is an
     * array and a leaf otherwise, carrying `name`; earlier entries are unchanged.
     */
    method Test(name: string, entry: TestEntry)
      modifies this
      ensures |entries| == |old(entries)| + 1
      ensures entries[..|old(entries)|] == old(entries)
      ensures entries[|old(entries)|].name == name
      ensures entries[|old(entries)|].Group? <==> entry.Array?
      ensures entry.Array? ==> entries[|old(entries)|].group == entry.entries
      ensures entry.Action? ==> entries[|old(entries)|].testFn == entry.fn
    {
      if IsTestArray(entry) {
        entries := entries + [Group(name, entry.entries)];
      } else {
        entries := entries + [Leaf(name, entry.fn)];
      }
    }
  }
}

=== FILE: runner.dfy ===
/**
 * `run_tests` of Test.ts: the depth-first walk over a test tree, the capture and replay
 * of each test action's console output, the indentation slot, and the failure report.
 *
 * The pure part says what a run computes (`Failed`, `Count`, `Outcome`) and what it
 * prints (`Transcript`); the class `Harness` holds the module-level state the source
 * mutates and its methods are proved to do exactly that.
 */
module Runner {
  import opened Wrappers
  import opened Console
  import opened Registry
  import opened Ansi

  /** The value the top-level run throws when some test failed. */
  const TestFailed: string := "TestFailed"

  /** How `run_tests` settles: it resolves to `[failed, test_count]` or it throws. */
  datatype RunResult = Returned(failed: seq<string>, count: nat) | Thrown(error: string)

  /** Printed output together with the console state it leaves behind. */
  datatype Effect = Effect(lines: seq<Line>, console: ConsoleState)

  // ---------------------------------------------------------------------------
  // Message texts
  // ---------------------------------------------------------------------------

  function DigitChar(d: nat): char
    requires d < 10
  {
    "0123456789"[d]
  }

  /** A number as JavaScript prints it in a template string. */
  function Dec(n: nat): string
  {
    if n < 10 then [DigitChar(n)] else Dec(n / 10) + [DigitChar(n % 10)]
  }

  function BannerText(): string
  {
    "\n" + EscBlue + "[ Test Runner ]" + EscReset + "\n"
  }

  /** The `_pfx` of a group marker: two backspaces, a dash, and two spaces below the top. */
  function GroupPrefix(padding: nat): string
  {
    Backspaces + "- " + (if padding > 0 then "  " else "")
  }

  function OpenText(padding: nat, name: string): string
  {
    GroupPrefix(padding) + EscYellow + "v " + name + EscReset
  }

  function CloseText(padding: nat, name: string): string
  {
    GroupPrefix(padding) + EscYellow + "^ " + name + EscReset
  }

  function PassText(name: string): string
  {
    Backspaces + "- " + EscGreen + "\U{2713}" + EscReset + " " + name
  }

  function FailText(name: string): string
  {
    Backspaces + "- " + EscRed + "\U{2717}" + EscReset + " " + name
  }

  function FailedCountText(failed: nat, total: nat): string
  {
    "\n" + Dec(failed) + "/" + Dec(total) + " test(s) failed\n"
  }

  function FailedNameText(name: string): string
  {
    "- " + EscRed + name + EscReset + " failed"
  }

  function AllPassedText(n: nat): string
  {
    "\nAll " + Dec(n) + " tests passed"
  }

  // ---------------------------------------------------------------------------
  // What a run computes
  // ---------------------------------------------------------------------------

  /** `f.map(el => name + " -> " + el)`. */
  function Qualify(name: string, failed: seq<string>): seq<string>
  {
    seq(|failed|, k requires 0 <= k < |failed| => name + " -> " + failed[k])
  }

  /** What one entry adds to `failed`: a failing leaf its bare name, a group its children's failures qualified by its name. */
  function NodeFailed(el: Node): seq<string>
    decreases el
  {
    match el
    case Leaf(name, testFn) => if testFn.settle.Throw? then [name] else []
    case Group(name, children) => Qualify(name, Failed(children))
  }

  /** What one entry adds to `test_count`: one for a leaf, its children's count for a group. */
  function NodeCount(el: Node): nat
    decreases el
  {
    match el
    case Leaf(_, _) => 1
    case Group(_, children) => Count(children)
  }

  /** The `failed` list of `run_tests(group, _)`. */
  function Failed(group: seq<Node>): seq<string>
    decreases group, 1
  {
    FailedUpTo(group, |group|)
  }

  /** The `failed` accumulator after the first `i` entries of `group`. */
  function FailedUpTo(group: seq<Node>, i: nat): seq<string>
    requires i <= |group|
    decreases group, 0, i
  {
    if i == 0 then [] else FailedUpTo(group, i - 1) + NodeFailed(group[i - 1])
  }

  /** The `test_count` of `run_tests(group, _)`. */
  function Count(group: seq<Node>): nat
    decreases group, 1
  {
    CountUpTo(group, |group|)
  }

  /** The `test_count` accumulator after the first `i` entries of `group`. */
  function CountUpTo(group: seq<Node>, i: nat): nat
    requires i <= |group|
    decreases group, 0, i
  {
    if i == 0 then 0 else CountUpTo(group, i - 1) + NodeCount(group[i - 1])
  }

  /**
   * How `run_tests(group, padding)` settles: it throws `TestFailed` exactly when it is
   * the top-level call and some test failed; otherwise it returns its two accumulators.
   */
  function Outcome(group: seq<Node>, padding: nat): RunResult
  {
    if |Failed(group)| > 0 && padding == 0 then Thrown(TestFailed)
    else Returned(Failed(group), Count(group))
  }

  // ---------------------------------------------------------------------------
  // What a run prints
  // ---------------------------------------------------------------------------

  /** The status marker of a finished test action: ✓ on the log channel, or ✗ and the error. */
  function Verdict(c: ConsoleState, name: string, settle: Settle): seq<Line>
    requires Idle(c)
  {
    match settle
    case Pass => Say(c, Log, [PassText(name)])
    case Throw(e) => Say(c, Error, [FailText(name)]) + Say(c, Error, [e])
  }

  /** Replaying captured calls, in order, each on its own channel. */
  function Replay(c: ConsoleState, calls: seq<Call>): seq<Line>
    requires Idle(c)
  {
    if calls == [] then []
    else
      var last := calls[|calls| - 1];
      Replay(c, calls[..|calls| - 1]) + Say(c, last.channel, last.args)
  }

  /** Everything one leaf prints: its marker, then the output its action made. */
  function LeafLines(c: ConsoleState, name: string, testFn: TestFn): seq<Line>
    requires Idle(c)
  {
    Verdict(c, name, testFn.settle) + Replay(c, testFn.logs)
  }

  /** One `- name failed` line per failed test. */
  function FailedList(c: ConsoleState, failed: seq<string>): seq<Line>
    requires Idle(c)
  {
    if failed == [] then []
    else FailedList(c, failed[..|failed| - 1]) + Say(c, Error, [FailedNameText(failed[|failed| - 1])])
  }

  /** The closing report of one level: an all-passed line, or (at the top only) the failure summary. */
  function Summary(c: ConsoleState, failed: seq<string>, count: nat, padding: nat, n: nat): seq<Line>
    requires Idle(c)
  {
    if |failed| == 0 then Say(c, Log, [AllPassedText(n)])
    else if padding != 0 then []
    else Say(c, Error, [FailedCountText(|failed|, count)]) + FailedList(c, failed) + Say(c, Log, [""])
  }

  /**
   * The output of `run_tests(group, padding)` started on console `c`, where `n` is the
   * length of the default registry, and the console it leaves behind.
   */
  function Transcript(group: seq<Node>, padding: nat, c: ConsoleState, n: nat): (e: Effect)
    requires Idle(c)
    ensures Idle(e.console)
    decreases group, 1
  {
    var banner := if padding == 0 then Say(c, Log, [BannerText()]) else [];
    var body := Walk(group, |group|, padding, c, n);
    Effect(banner + body.lines + Summary(body.console, Failed(group), Count(group), padding, n), body.console)
  }

  /**
   * The group branch of the loop at depth `padding`, started on console `c`: the open
   * marker, the nested run under one more level of padding, the close marker; every
   * slot is reset afterwards.
   */
  function GroupStep(c: ConsoleState, name: string, children: seq<Node>, padding: nat, n: nat): (e: Effect)
    requires Idle(c)
    ensures Idle(e.console)
    decreases children, 2
  {
    var c1 := Pad(Reset(c), Width((padding + 1) * 4));
    var inner := Transcript(children, padding + 1, c1, n);
    var c2 := Pad(Reset(inner.console), Width(padding * 4));
    Effect(Say(c, Log, [OpenText(padding, name)]) + inner.lines + Say(c2, Log, [CloseText(padding, name)]),
           Reset(c2))
  }

  /** Output appended in two pieces is the output appended at once. */
  lemma Concat2<T>(o0: seq<T>, a: seq<T>, b: seq<T>, o1: seq<T>, o2: seq<T>)
    requires o1 == o0 + a && o2 == o1 + b
    ensures o2 == o0 + (a + b)
  {
  }

  /** Output appended in three pieces is the output appended at once. */
  lemma Concat3<T>(o0: seq<T>, a: seq<T>, b: seq<T>, c: seq<T>, o1: seq<T>, o2: seq<T>, o3: seq<T>)
    requires o1 == o0 + a && o2 == o1 + b && o3 == o2 + c
    ensures o3 == o0 + (a + b + c)
  {
  }

  /** Reading `GroupStep` off the three phases of a group: open, nested run, close. */
  lemma GroupStepParts(c: ConsoleState, name: string, children: seq<Node>, padding: nat, n: nat,
                       o0: seq<Line>, o1: seq<Line>, o2: seq<Line>, o3: seq<Line>)
    requires Idle(c)
    requires o1 == o0 + Say(c, Log, [OpenText(padding, name)])
    requires o2 == o1 + Transcript(children, padding + 1, Pad(Reset(c), Width((padding + 1) * 4)), n).lines
    requires o3 == o2 + Say(Pad(Reset(Transcript(children, padding + 1, Pad(Reset(c), Width((padding + 1) * 4)), n).console), Width(padding * 4)), Log, [CloseText(padding, name)])
    ensures o3 == o0 + GroupStep(c, name, children, padding, n).lines
  {
    var c1 := Pad(Reset(c), Width((padding + 1) * 4));
    var inner := Transcript(children, padding + 1, c1, n);
    var c2 := Pad(Reset(inner.console), Width(padding * 4));
    Concat3(o0, Say(c, Log, [OpenText(padding, name)]), inner.lines, Say(c2, Log, [CloseText(padding, name)]), o1, o2, o3);
  }

  /** Reading `Transcript` off its three phases: banner, the loop, the summary. */
  lemma TranscriptParts(group: seq<Node>, padding: nat, c: ConsoleState, n: nat,
                        o0: seq<Line>, o1: seq<Line>, o2: seq<Line>, o3: seq<Line>)
    requires Idle(c)
    requires o1 == o0 + (if padding == 0 then Say(c, Log, [BannerText()]) else [])
    requires o2 == o1 + Walk(group, |group|, padding, c, n).lines
    requires o3 == o2 + Summary(Walk(group, |group|, padding, c, n).console, Failed(group), Count(group), padding, n)
    ensures o3 == o0 + Transcript(group, padding, c, n).lines
    ensures Transcript(group, padding, c, n).console == Walk(group, |group|, padding, c, n).console
  {
    var banner := if padding == 0 then Say(c, Log, [BannerText()]) else [];
    var body := Walk(group, |group|, padding, c, n);
    Concat3(o0, banner, body.lines, Summary(body.console, Failed(group), Count(group), padding, n), o1, o2, o3);
  }

  /** `Walk` one node further: the lines of node `j - 1` are appended, its console carries on. */
  lemma WalkNext(group: seq<Node>, j: nat, padding: nat, c: ConsoleState, n: nat)
    requires 0 < j <= |group| && Idle(c)
    ensures Walk(group, j, padding, c, n).lines
         == Walk(group, j - 1, padding, c, n).lines + NodeStep(Walk(group, j - 1, padding, c, n).console, group[j - 1], padding, n).lines
    ensures Walk(group, j, padding, c, n).console == NodeStep(Walk(group, j - 1, padding, c, n).console, group[j - 1], padding, n).console
  {
  }

  /** Reading `Walk` one node further off the output printed so far. */
  lemma WalkParts(group: seq<Node>, i: nat, padding: nat, c: ConsoleState, n: nat,
                  o0: seq<Line>, o1: seq<Line>, o2: seq<Line>)
    requires i < |group| && Idle(c)
    requires o1 == o0 + Walk(group, i, padding, c, n).lines
    requires o2 == o1 + NodeStep(Walk(group, i, padding, c, n).console, group[i], padding, n).lines
    ensures o2 == o0 + Walk(group, i + 1, padding, c, n).lines
    ensures Walk(group, i + 1, padding, c, n).console == NodeStep(Walk(group, i, padding, c, n).console, group[i], padding, n).console
  {
    var prev := Walk(group, i, padding, c, n);
    WalkNext(group, i + 1, padding, c, n);
    Concat2(o0, prev.lines, NodeStep(prev.console, group[i], padding, n).lines, o1, o2);
  }

  /** The output of one iteration of the loop at depth `padding`, started on console `c`. */
  function NodeStep(c: ConsoleState, el: Node, padding: nat, n: nat): (e: Effect)
    requires Idle(c)
    ensures Idle(e.console)
    decreases el, 3
  {
    match el
    case Leaf(name, testFn) => Effect(LeafLines(c, name, testFn), c)
    case Group(name, children) => GroupStep(c, name, children, padding, n)
  }

  /** The output of the first `i` iterations of the loop over `group`. */
  function Walk(group: seq<Node>, i: nat, padding: nat, c: ConsoleState, n: nat): (e: Effect)
    requires i <= |group|
    requires Idle(c)
    ensures Idle(e.console)
    decreases group, 0, i
  {
    if i == 0 then Effect([], c)
    else
      var prev := Walk(group, i - 1, padding, c, n);
      var step := NodeStep(prev.console, group[i - 1], padding, n);
      Effect(prev.lines + step.lines, step.console)
  }

  // ---------------------------------------------------------------------------
  // The module-level state and the runner
  // ---------------------------------------------------------------------------

  class Harness {
    /** `internal_tests`, the default registry. */
    const internalTests: TestGroup
    /** `console.log`, `console.error`, `console.warn`. */
    var consoleLog: Sink
    var consoleError: Sink
    var consoleWarn: Sink
    /** `originalConsoleLog`, `originalConsoleError`, `originalConsoleWarn`. */
    var originalConsoleLog: Option<Sink>
    var originalConsoleError: Option<Sink>
    var originalConsoleWarn: Option<Sink>
    /** Everything that reached the real terminal, in order. */
    var out: seq<Line>
    /** The `log_stream` of the test action currently running. */
    var captured: seq<Call>

    /** The console functions and slots as one value. */
    function Snapshot(): ConsoleState
      reads this
    {
      ConsoleState(consoleLog, consoleError, consoleWarn,
                   originalConsoleLog, originalConsoleError, originalConsoleWarn)
    }

    /** Module load: an empty default registry, the original console, null slots. */
    constructor ()
      ensures fresh(internalTests) && internalTests.entries == []
      ensures Snapshot() == Plain && out == [] && captured == []
    {
      internalTests := new TestGroup();
      consoleLog, consoleError, consoleWarn := Direct, Direct, Direct;
      originalConsoleLog, originalConsoleError, originalConsoleWarn := None, None, None;
      out, captured := [], [];
    }

    /**
     * Calling the console function `fn` on channel `ch`: the original prints, the
     * capturing function records the call, and the padding wrapper joins the arguments
     * with spaces, prefixes every line and forwards the result to the channel's slot.
     */
    method Invoke(fn: Sink, ch: Channel, args: seq<string>)
      requires fn.Padded? ==> Snapshot().Original(ch) == Some(Direct)
      modifies this
      ensures Snapshot() == old(Snapshot())
      ensures fn == Buffered ==> out == old(out) && captured == old(captured) + [Call(ch, args)]
      ensures fn != Buffered ==> out == old(out) + [Line(ch, Shown(fn, args))] && captured == old(captured)
      decreases if fn.Padded? then 1 else 0
    {
      match fn
      case Direct =>
        out := out + [Line(ch, Join(args, " "))];
      case Buffered =>
        captured := captured + [Call(ch, args)];
      case Padded(pad) =>
        var text := Join(args, " ");
        var padded := PadLines(text, pad);
        var original := Snapshot().Original(ch);
        Invoke(original.value, ch, [padded]);
    }

    /** `pad_console(arg)`. */
    method PadConsole(arg: PadArg)
      modifies this
      ensures Snapshot() == Pad(old(Snapshot()), arg)
      ensures out == old(out) && captured == old(captured)
    {
      var pad := PadString(arg);
      if originalConsoleLog == None {
        originalConsoleLog := Some(consoleLog);
        consoleLog := Padded(pad);
      }
      if originalConsoleError == None {
        originalConsoleError := Some(consoleError);
        consoleError := Padded(pad);
      }
      if originalConsoleWarn == None {
        originalConsoleWarn := Some(consoleWarn);
        consoleWarn := Padded(pad);
      }
    }

    /** `reset_console_padding()`. */
    method ResetConsolePadding()
      modifies this
      ensures Snapshot() == Reset(old(Snapshot()))
      ensures out == old(out) && captured == old(captured)
    {
      if originalConsoleLog.Some? {
        consoleLog := originalConsoleLog.value;
        originalConsoleLog := None;
      }
      if originalConsoleError.Some? {
        consoleError := originalConsoleError.value;
        originalConsoleError := None;
      }
      if originalConsoleWarn.Some? {
        consoleWarn := originalConsoleWarn.value;
        originalConsoleWarn := None;
      }
    }

    /**
     * `await test_fn()` while every channel captures: the action's calls all land in
     * the capture buffer, in order, and nothing reaches the terminal.
     */
    method Execute(testFn: TestFn) returns (settle: Settle)
      requires consoleLog == Buffered && consoleError == Buffered && consoleWarn == Buffered
      modifies this
      ensures settle == testFn.settle
      ensures Snapshot() == old(Snapshot())
      ensures out == old(out) && captured == old(captured) + testFn.logs
    {
      for k := 0 to |testFn.logs|
        invariant Snapshot() == old(Snapshot())
        invariant out == old(out) && captured == old(captured) + testFn.logs[..k]
      {
        var call := testFn.logs[k];
        Invoke(Snapshot().Fn(call.channel), call.channel, call.args);
        assert testFn.logs[..k + 1] == testFn.logs[..k] + [call];
      }
      assert testFn.logs[..|testFn.logs|] == testFn.logs;
      settle := testFn.settle;
    }

    /**
     * The `for (const l of log_stream)` replay: every captured call goes, in order,
     * to the function now installed on its channel.
     */
    method ReplayCaptured(stream: seq<Call>)
      requires Idle(Snapshot())
      modifies this
      ensures Snapshot() == old(Snapshot()) && captured == old(captured)
      ensures out == old(out) + Replay(old(Snapshot()), stream)
    {
      for k := 0 to |stream|
        invariant Snapshot() == old(Snapshot()) && captured == old(captured)
        invariant out == old(out) + Replay(old(Snapshot()), stream[..k])
      {
        var call := stream[k];
        match call.channel {
          case Log => Invoke(consoleLog, Log, call.args);
          case Error => Invoke(consoleError, Error, call.args);
          case Warn => Invoke(consoleWarn, Warn, call.args);
        }
        assert stream[..k + 1][..k] == stream[..k];
      }
      assert stream[..|stream|] == stream;
    }

    /**
     * The leaf branch of `run_tests`: capture the action's output, print its status
     * marker through the saved functions, restore the console, then replay the
     * captured calls. Reports whether the action passed.
     */
    method RunLeaf(name: string, testFn: TestFn) returns (passed: bool)
      requires Idle(Snapshot())
      modifies this
      ensures passed <==> testFn.settle == Pass
      ensures Snapshot() == old(Snapshot())
      ensures out == old(out) + LeafLines(old(Snapshot()), name, testFn)
    {
      ghost var c := Snapshot();
      var oldLog, oldError, oldWarn := consoleLog, consoleError, consoleWarn;
      captured := [];
      consoleLog, consoleError, consoleWarn := Buffered, Buffered, Buffered;
      var settle := Execute(testFn);
      assert captured == testFn.logs;
      passed := ShowVerdict(c, oldLog, oldError, name, settle);
      consoleLog, consoleError, consoleWarn := oldLog, oldError, oldWarn;
      assert Snapshot() == c;
      ReplayCaptured(captured);
    }

    /**
     * The verdict of one test (lines 74 and 77-78), printed through the saved `log` and
     * `error` of console `c` while the live console may still be capturing.
     */
    method ShowVerdict(ghost c: ConsoleState, log: Sink, error: Sink, name: string, settle: Settle) returns (passed: bool)
      requires Idle(c) && log == c.log && error == c.error
      requires Snapshot().Original(Log) == c.Original(Log) && Snapshot().Original(Error) == c.Original(Error)
      modifies this
      ensures passed <==> settle == Pass
      ensures Snapshot() == old(Snapshot()) && captured == old(captured)
      ensures out == old(out) + Verdict(c, name, settle)
    {
      match settle {
        case Pass =>
          Invoke(log, Log, [PassText(name)]);
          passed := true;
        case Throw(e) =>
          passed := false;
          Invoke(error, Error, [FailText(name)]);
          Invoke(error, Error, [e]);
      }
    }

    /**
     * Entering a group (lines 49-53): the open marker through the current console, then
     * every slot reset and the console wrapped for one more level.
     */
    method OpenGroup(name: string, padding: nat)
      requires Idle(Snapshot())
      modifies this
      ensures Snapshot() == Pad(Reset(old(Snapshot())), Width((padding + 1) * 4))
      ensures out == old(out) + Say(old(Snapshot()), Log, [OpenText(padding, name)])
    {
      var pfx := GroupPrefix(padding);
      Invoke(consoleLog, Log, [pfx + EscYellow + "v " + name + EscReset]);
      ResetConsolePadding();
      PadConsole(Width((padding + 1) * 4));
    }

    /**
     * Leaving a group (lines 57-61): every slot reset, the console wrapped for this
     * level, the close marker, and every slot reset again.
     */
    method CloseGroup(name: string, padding: nat)
      requires Idle(Snapshot())
      modifies this
      ensures Snapshot() == Reset(Pad(Reset(old(Snapshot())), Width(padding * 4)))
      ensures out == old(out) + Say(Pad(Reset(old(Snapshot())), Width(padding * 4)), Log, [CloseText(padding, name)])
    {
      var pfx := GroupPrefix(padding);
      ResetConsolePadding();
      PadConsole(Width(padding * 4));
      Invoke(consoleLog, Log, [pfx + EscYellow + "^ " + name + EscReset]);
      ResetConsolePadding();
    }

    /**
     * The group branch of `run_tests` at depth `padding`. The nested call never throws,
     * so the `catch` that would leave `f` and `count` at their initial values is not taken.
     */
    method RunGroup(name: string, children: seq<Node>, padding: nat) returns (f: seq<string>, count: nat)
      requires Idle(Snapshot())
      modifies this
      ensures f == Failed(children) && count == Count(children)
      ensures out == old(out) + GroupStep(old(Snapshot()), name, children, padding, |internalTests.entries|).lines
      ensures Snapshot() == GroupStep(old(Snapshot()), name, children, padding, |internalTests.entries|).console
      decreases children, 2
    {
      ghost var n := |internalTests.entries|;
      ghost var c := Snapshot();
      ghost var before := out;
      OpenGroup(name, padding);
      ghost var begun := out;
      ghost var c1 := Snapshot();
      f, count := [], 0;
      var res := RunTests(children, padding + 1);
      if res.Returned? {
        f, count := res.failed, res.count;
      }
      ghost var middle := out;
      CloseGroup(name, padding);
      GroupStepParts(c, name, children, padding, n, before, begun, middle, out);
    }

    /** The `- name failed` lines of the top-level summary. */
    method ListFailures(failed: seq<string>)
      requires Idle(Snapshot())
      modifies this
      ensures Snapshot() == old(Snapshot())
      ensures out == old(out) + FailedList(old(Snapshot()), failed)
    {
      for j := 0 to |failed|
        invariant Snapshot() == old(Snapshot())
        invariant out == old(out) + FailedList(old(Snapshot()), failed[..j])
      {
        Invoke(consoleError, Error, [FailedNameText(failed[j])]);
        assert failed[..j + 1][..j] == failed[..j];
      }
      assert failed[..|failed|] == failed;
    }

    /** The closing report of `run_tests`: the all-passed line, or at the top the failure summary and the throw. */
    method Report(failed: seq<string>, testCount: nat, padding: nat) returns (r: RunResult)
      requires Idle(Snapshot())
      modifies this
      ensures r == if |failed| > 0 && padding == 0 then Thrown(TestFailed) else Returned(failed, testCount)
      ensures Snapshot() == old(Snapshot())
      ensures out == old(out) + Summary(old(Snapshot()), failed, testCount, padding, |internalTests.entries|)
    {
      if |failed| == 0 {
        Invoke(consoleLog, Log, [AllPassedText(|internalTests.entries|)]);
      } else if padding == 0 {
        ghost var c := Snapshot();
        Invoke(consoleError, Error, [FailedCountText(|failed|, testCount)]);
        ghost var counted := out;
        ListFailures(failed);
        ghost var listed := out;
        Invoke(consoleLog, Log, [""]);
        Concat3(old(out), Say(c, Error, [FailedCountText(|failed|, testCount)]), FailedList(c, failed), Say(c, Log, [""]), counted, listed, out);
        return Thrown(TestFailed);
      }
      r := Returned(failed, testCount);
    }

    /**
     * `run_tests(group, padding)`: walks `group` in order, returns or throws as
     * `Outcome` says whatever the console state, prints exactly `Transcript`, and
     * leaves the console as `Transcript` says. The registry is not touched.
     */
    method RunTests(group: seq<Node>, padding: nat) returns (r: RunResult)
      requires Idle(Snapshot())
      modifies this
      ensures r == Outcome(group, padding)
      ensures out == old(out) + Transcript(group, padding, old(Snapshot()), |internalTests.entries|).lines
      ensures Snapshot() == Transcript(group, padding, old(Snapshot()), |internalTests.entries|).console
      decreases group, 1
    {
      ghost var n := |internalTests.entries|;
      ghost var c := old(Snapshot());
      if padding == 0 {
        Invoke(consoleLog, Log, [BannerText()]);
      }
      ghost var start := out;
      var failed, testCount := RunEntries(group, padding);
      ghost var walked := out;
      r := Report(failed, testCount, padding);
      TranscriptParts(group, padding, c, n, old(out), start, walked, out);
    }

    /** The `for (const el of group)` loop of `run_tests` at depth `padding`. */
    method RunEntries(group: seq<Node>, padding: nat) returns (failed: seq<string>, testCount: nat)
      requires Idle(Snapshot())
      modifies this
      ensures failed == Failed(group) && testCount == Count(group)
      ensures out == old(out) + Walk(group, |group|, padding, old(Snapshot()), |internalTests.entries|).lines
      ensures Snapshot() == Walk(group, |group|, padding, old(Snapshot()), |internalTests.entries|).console
      decreases group, 0
    {
      ghost var n := |internalTests.entries|;
      ghost var c := old(Snapshot());
      testCount := 0;
      failed := [];
      for i := 0 to |group|
        invariant Idle(Snapshot())
        invariant failed == FailedUpTo(group, i) && testCount == CountUpTo(group, i)
        invariant Snapshot() == Walk(group, i, padding, c, n).console
        invariant out == old(out) + Walk(group, i, padding, c, n).lines
      {
        ghost var o1 := out;
        var f, count := RunNode(group[i], padding);
        WalkParts(group, i, padding, c, n, old(out), o1, out);
        failed := failed + f;
        testCount := testCount + count;
      }
    }

    /**
     * One iteration of the loop of `run_tests`: a group or a leaf, with what it adds to
     * `failed` and to `test_count`.
     */
    method RunNode(el: Node, padding: nat) returns (failed: seq<string>, count: nat)
      requires Idle(Snapshot())
      modifies this
      ensures failed == NodeFailed(el) && count == NodeCount(el)
      ensures out == old(out) + NodeStep(old(Snapshot()), el, padding, |internalTests.entries|).lines
      ensures Snapshot() == NodeStep(old(Snapshot()), el, padding, |internalTests.entries|).console
      decreases el, 3
    {
      if IsTestGroup(el) {
        var f, k := RunGroup(el.name, el.group, padding);
        failed := Qualify(el.name, f);
        count := k;
      } else {
        var passed := RunLeaf(el.name, el.testFn);
        failed := if passed then [] else [el.name];
        count := 1;
      }
    }
  }
}

=== FILE: suite.dfy ===
/**
 * The registration script test.test.ts and end-to-end scenarios of the runner, proved of
 * the model.
 */
module Suite {
  import opened Wrappers
  import opened Console
  import opened Registry
  import opened Runner
  import opened Assertions

  /** A test action whose only effect is one assertion helper call. */
  function Asserting(thrown: Option<string>): TestFn
  {
    TestFn([], if thrown.Some? then Throw(thrown.value) else Pass)
  }

  /** The five leaves test.test.ts registers, in order. */
  function ExampleSuite(): seq<Node>
  {
    [ Leaf("test assertion true", Asserting(Assert(true, "true"))),
      Leaf("test assertion false", Asserting(Assert(false, "false"))),
      Leaf("test assert equals", Asserting(AssertEquals(true, Some("1 == 1"), "1", "1"))),
      Leaf("test assert not equals", Asserting(AssertEquals(false, Some("1 != 2"), "2", "1"))),
      Leaf("test assert not equals default msg", Asserting(AssertEquals(false, None, "4", "3"))) ]
  }

  /** The five `test(...)` calls of test.test.ts against `group`. */
  method RegisterExampleSuite(group: TestGroup)
    modifies group
    ensures group.entries == old(group.entries) + ExampleSuite()
  {
    group.Test("test assertion true", Action(Asserting(Assert(true, "true"))));
    group.Test("test assertion false", Action(Asserting(Assert(false, "false"))));
    group.Test("test assert equals", Action(Asserting(AssertEquals(true, Some("1 == 1"), "1", "1"))));
    group.Test("test assert not equals", Action(Asserting(AssertEquals(false, Some("1 != 2"), "2", "1"))));
    group.Test("test assert not equals default msg", Action(Asserting(AssertEquals(false, None, "4", "3"))));
  }

  lemma FailedOfOne(el: Node)
    ensures Failed([el]) == NodeFailed(el)
  {
    assert FailedUpTo([el], 1) == FailedUpTo([el], 0) + NodeFailed([el][0]);
  }

  /** Three of the five leaves fail, so the count is 5 and the top-level run throws. */
  lemma ExampleSuiteFails()
    ensures Count(ExampleSuite()) == 5
    ensures Failed(ExampleSuite()) == ["test assertion false", "test assert not equals", "test assert not equals default msg"]
    ensures Outcome(ExampleSuite(), 0) == Thrown(TestFailed)
  {
    var g := ExampleSuite();
    assert FailedUpTo(g, 1) == [];
    assert FailedUpTo(g, 2) == ["test assertion false"];
    assert FailedUpTo(g, 3) == ["test assertion false"];
    assert FailedUpTo(g, 4) == ["test assertion false", "test assert not equals"];
    assert CountUpTo(g, 2) == 2;
  }

  /** test.test.ts end to end: register on a fresh default registry, then `run_tests()` throws. */
  method RunExampleSuite() returns (r: RunResult)
    ensures r == Thrown(TestFailed)
  {
    var harness := new Harness();
    RegisterExampleSuite(harness.internalTests);
    assert harness.internalTests.entries == ExampleSuite();
    r := harness.RunTests(harness.internalTests.entries, 0);
    ExampleSuiteFails();
  }

  /** One group "G" holding a passing and a failing case: failures ["G -> fail"], count 2, the run throws. */
  lemma GroupWithOneFailure()
    ensures var g := [Group("G", [Leaf("pass", Asserting(Assert(true, ""))), Leaf("fail", Asserting(Assert(false, "")))])];
            Failed(g) == ["G -> fail"] && Count(g) == 2 && Outcome(g, 0) == Thrown(TestFailed)
  {
    var children := [Leaf("pass", Asserting(Assert(true, ""))), Leaf("fail", Asserting(Assert(false, "")))];
    assert FailedUpTo(children, 1) == [];
    assert Failed(children) == ["fail"];
    assert Count(children) == 2;
    var g := [Group("G", children)];
    assert NodeFailed(g[0]) == Qualify("G", ["fail"]);
    assert Qualify("G", ["fail"])[0] == "G -> fail";
    FailedOfOne(g[0]);
  }

  /** Only the innermost leaf of three nested levels fails: its entry is "outer -> middle -> leafname". */
  lemma ThreeLevelFailureName()
    ensures Failed([Group("outer", [Group("middle", [Leaf("leafname", Asserting(Assert(false, "")))])])])
         == ["outer -> middle -> leafname"]
  {
    var inner := [Leaf("leafname", Asserting(Assert(false, "")))];
    assert Failed(inner) == ["leafname"];
    var middle := [Group("middle", inner)];
    assert Qualify("middle", ["leafname"])[0] == "middle -> leafname";
    FailedOfOne(middle[0]);
    assert Failed(middle) == ["middle -> leafname"];
    var outer := [Group("outer", middle)];
    assert Qualify("outer", ["middle -> leafname"])[0] == "outer -> middle -> leafname";
    FailedOfOne(outer[0]);
  }

  /** The empty registry: the banner, the all-passed line, no failures, no throw. */
  lemma EmptyRegistryPasses(n: nat)
    ensures Outcome([], 0) == Returned([], 0)
    ensures Transcript([], 0, Plain, n).lines == [Line(Log, BannerText()), Line(Log, AllPassedText(n))]
  {
  }
}

=== FILE: wrappers.dfy ===
/** The optional value used for the source's nullable slots and thrown messages. */
module Wrappers {
  datatype Option<+T> = None | Some(value: T)
}
